=== FILE: README.md ===
# dzl logging pipeline, in Dafny

A model of the logging pipeline of the `dzl` crate, a small leveled logger.
A caller emits a message through one of six entry points (`trace`, `debug`,
`info`, `warn`, `error`, `custom`). The crate reads `Dzl.toml`, filters the
message against the configured `log_level`, prints it in colour to stdout or
stderr, and, when `write_to_log_file` is set, appends it to the log file by
reading the whole file and writing it back. `init` creates the log file when
it is missing.

The model is functional. The file system is an immutable map from paths to
file states, and every call returns its result, the new file system and the
console lines it printed. Three things from outside the program are
parameters: the file system, the TOML parser (`parse`, which turns the text
of `Dzl.toml` into the three optional settings or fails), and the timestamp,
an opaque string. A fourth parameter, `colorFault`, is the I/O error with
which the terminal refuses a colour change, if it does.

Modules, following the source files:

- `Options`: `Option`.
- `Errors` (`src/errors.rs`): `CustomError`, the conversion from an I/O error kind, and `Res`. `Res` is a `Result` that can also be a panic.
- `FileSystem`: `read_to_string`, `File::open`, `File::create` and `fs::write` over the map.
- `Levels` (`src/log.rs`, first half): the `Log` enum, its derived order, `get_level`, `get_color`.
- `Configuration` (`src/config.rs`): `Config`, `Default`, `read`, `log_level`.
- `Logging` (`src/log.rs`, second half): `check_level`, `print_log`/`write_to_term`, `write_log`, `log`.
- `Lib` (`src/lib.rs`): `init`.
- `Loggers` (`src/loggers.rs`): the six entry points and `handle_error`.
- `Sessions`: properties of several calls in a row.

`src/log.rs` is split in two because `src/log.rs` and `src/config.rs` use
each other, and Dafny modules cannot import each other. The getters
`log_path` and `write_to_log_file` are the datatype's field selectors.

Behaviour of the code a reader may not expect:

- The order is the derived one. Variants compare by declaration position: Trace < Info < Debug < Warn < Error < Custom. Info sits below Debug. Payloads are compared after that, lexicographically. Custom takes part in the order like any other variant, so a `custom` threshold (the default) lets only Custom messages through. The crate's documentation example agrees: with `log_level = "debug"` it shows no INFO line.
- `check_level` applies `?` to the `Option` returned by `log_level`, which does not type-check in a function returning `Result`. The model takes the evident meaning: no threshold passes everything, and a threshold `t` passes a message `m` when `t <= m`.
- `init` writes no entry. It creates a missing file and does not look at `write_to_log_file`.
- A failed `fs::write` or a refused colour change is returned as an error. `handle_error` then ends the process with status 1. These failures are not downgraded to a diagnostic.

File states: a file has a body and two permissions. The body is `Text(content)` for valid UTF-8 or `Binary` for bytes that are not. `readable` says whether the process may open the file for reading, and `writable` whether it may open it for writing. Reading a file without read permission fails with `PermissionDenied`; reading a `Binary` file fails with `InvalidData`. `fs::write` and `File::create` keep an existing file's permissions, and a file they create is readable and writable. Paths are plain strings, and each distinct string names a distinct file.

## Model

| member | source | states |
|---|---|---|
| `Levels.LogLeReflexive` | src/log.rs:8-17 | the derived `<=` on `Log` is reflexive |
| `Levels.LogLeAntisymmetric` | src/log.rs:8-17 | two levels each `<=` the other are equal, variant and payloads |
| `Levels.LogLeTransitive` | src/log.rs:8-17 | the derived `<=` is transitive, including the (type, content) tuple order of Custom |
| `Levels.LogLeTotal` | src/log.rs:8-17 | any two levels are comparable |
| `Levels.StrLeIsLexicographic` | src/log.rs:10-16 | the payload comparison is lexicographic order on strings: a prefix, or smaller at the first difference |
| `Levels.ThresholdComparesRank` | src/log.rs:8-17 | against an empty-payload threshold the derived order reduces to the variant's declaration position |
| `Levels.GetLevel` | src/log.rs:117-126 | Custom's label is its first field verbatim; Trace, Info, Debug, Warn and Error are labelled TRACE, INFO, DEBUG, WARN and ERROR respectively |
| `Levels.BuiltinLabelsIdentifyVariant` | src/log.rs:117-126 | two built-in levels share a label exactly when they are the same variant |
| `Levels.GetColor` | src/log.rs:128-137 | red exactly for Error, yellow exactly for Warn, blue exactly for Custom, green exactly for Trace/Info/Debug |
| `Errors.FromIo` | src/errors.rs:9-20 | every I/O error becomes an IOError; NotFound gives the fixed `Dzl.toml` message whichever file was missing; PermissionDenied gives the fixed permissions message; any other kind gives `Other IO errors: ` followed by the kind's debug name |
| `Errors.FromIoInjective` | src/errors.rs:11-19 | different error kinds never produce the same CustomError |
| `Configuration.Default` | src/config.rs:65-73 | defaults are file logging on, path `dzl.log`, and a `custom` threshold with empty payloads |
| `Configuration.Read` | src/config.rs:22-36 | a `Dzl.toml` that cannot be read gives the I/O error of the read, converted, so a missing file gives the not-found message and one without read permission the permissions message; a parse failure gives ParseError with the fixed message and no config; otherwise the three parsed fields unchanged, with no defaults merged in; never panics |
| `Configuration.LogLevel` | src/config.rs:43-59 | absent gives no threshold; each of the six names gives its variant with empty payloads, named by that string; any other string panics with `Unknown log level` |
| `Configuration.LevelNameRoundTrip` | src/config.rs:44-51 | a setting yields threshold `t` exactly when it is `t`'s name |
| `Logging.CheckLevel` | src/log.rs:139-147 | no threshold passes every message; threshold `t` passes `m` exactly when `t`'s declaration position is at most `m`'s; an unknown level name panics; never an error |
| `Logging.CustomThresholdAdmitsOnlyCustom` | src/config.rs:51 | under a `custom` threshold, including the default configuration, a message passes exactly when it is Custom |
| `Logging.DebugThresholdDropsTraceAndInfo` | src/lib.rs:24-31 | under a `debug` threshold every message passes except Trace and Info |
| `Logging.TraceThresholdAdmitsAll` | src/log.rs:142-146 | under a `trace` threshold, or none, every message passes |
| `Logging.RenderedEntryIsOneLine` | src/log.rs:44-49 | the file line ends in its only newline when timestamp, label and content hold none |
| `Logging.PrintLog` | src/log.rs:80-114 | Error goes to stderr, every other level to stdout, in the level's colour; the printed text is the file line, so Custom shows its type in place of a level name; a refused colour change is the converted error and nothing is printed |
| `Logging.WriteLog` | src/log.rs:35-78 | no path panics; a readable and writable text file gets old contents plus the line; a read-only one gives PermissionDenied and no change; a missing file is created and the retry leaves exactly the line, after one notice; a non-UTF-8 file that opens is left unchanged with Ok; one that can be neither read nor written gives PermissionDenied; a write-only file is truncated and given up on after two notices; at most one retry and two notices, never a stack overflow |
| `Logging.WriteLogAsWritten` | src/log.rs:35-78 | with two stack frames or more, the code as written agrees with `WriteLog` on every file but a write-only one; on a write-only file it truncates the file and recurses until the stack runs out, printing one notice per frame |
| `Logging.WriteLogKeepsOldContents` | src/log.rs:50-65 | the old text of the log file stays a prefix of the new, and the file changes exactly when the call succeeds |
| `Logging.Dispatch` | src/log.rs:19-33 | a config error returns it with no effect; a rejected message has no console or file effect; a passing one is always printed first; the file is written only when `write_to_log_file` is `Some(true)`; nothing changes on disk otherwise |
| `Lib.Init` | src/lib.rs:43-54 | a config error propagates; no log path changes nothing; a missing log file is created empty; an existing file is untouched, also when opening it fails for another reason; no console output |
| `Lib.InitIsIdempotent` | src/lib.rs:45-51 | a second `init` changes nothing and returns the same result |
| `Loggers.HandleError` | src/loggers.rs:29-38 | Ok has no effect; an IOError or a ParseError prints its message on stderr and exits with status 1; a panic passes through |
| `Loggers.Emit` | src/loggers.rs:30-37 | the process keeps running exactly when `log` succeeded and exits with 1 exactly when it returned an error, after which the error's message follows `log`'s console lines; the file effects of `log` persist and its console lines come first; a passing message with a working terminal is printed first; a rejected message on a running process prints nothing; a running process prints exactly `log`'s lines, the creating notice included; a panic in `log`, such as an unknown `log_level`, ends the process as that panic with `log`'s file effects and console lines |
| `Loggers.Custom` | src/loggers.rs:3-8 | the process keeps running exactly when `log` succeeds, and exits with 1 exactly when `log` returns an error, with that error's message as the last line on stderr; the file effects are those of `log`; a message that passes the filter, with a terminal that accepts the colour, is printed first, the type is the label and the content comes second, in blue on stdout; a rejected message that does not fail prints nothing; a running process prints exactly `log`'s lines, the creating notice included; a panic in `log`, such as an unknown `log_level`, ends the process as that panic with `log`'s file effects and console lines |
| `Loggers.Trace` | src/loggers.rs:9-11 | the process keeps running exactly when `log` succeeds, and exits with 1 exactly when `log` returns an error, with that error's message as the last line on stderr; the file effects are those of `log`; a message that passes the filter, with a terminal that accepts the colour, is printed first, as a Trace entry, green on stdout, labelled TRACE; a rejected message that does not fail prints nothing; a running process prints exactly `log`'s lines, the creating notice included; a panic in `log`, such as an unknown `log_level`, ends the process as that panic with `log`'s file effects and console lines |
| `Loggers.Debug` | src/loggers.rs:13-15 | the process keeps running exactly when `log` succeeds, and exits with 1 exactly when `log` returns an error, with that error's message as the last line on stderr; the file effects are those of `log`; a message that passes the filter, with a terminal that accepts the colour, is printed first, as a Debug entry, green on stdout, labelled DEBUG; a rejected message that does not fail prints nothing; a running process prints exactly `log`'s lines, the creating notice included; a panic in `log`, such as an unknown `log_level`, ends the process as that panic with `log`'s file effects and console lines |
| `Loggers.Info` | src/loggers.rs:17-19 | the process keeps running exactly when `log` succeeds, and exits with 1 exactly when `log` returns an error, with that error's message as the last line on stderr; the file effects are those of `log`; a message that passes the filter, with a terminal that accepts the colour, is printed first, as an Info entry, green on stdout, labelled INFO; a rejected message that does not fail prints nothing; a running process prints exactly `log`'s lines, the creating notice included; a panic in `log`, such as an unknown `log_level`, ends the process as that panic with `log`'s file effects and console lines |
| `Loggers.Warn` | src/loggers.rs:21-23 | the process keeps running exactly when `log` succeeds, and exits with 1 exactly when `log` returns an error, with that error's message as the last line on stderr; the file effects are those of `log`; a message that passes the filter, with a terminal that accepts the colour, is printed first, as a Warn entry, yellow on stdout, labelled WARN; a rejected message that does not fail prints nothing; a running process prints exactly `log`'s lines, the creating notice included; a panic in `log`, such as an unknown `log_level`, ends the process as that panic with `log`'s file effects and console lines |
| `Loggers.Error` | src/loggers.rs:25-27 | the process keeps running exactly when `log` succeeds, and exits with 1 exactly when `log` returns an error, with that error's message as the last line on stderr; the file effects are those of `log`; a message that passes the filter, with a terminal that accepts the colour, is printed first, as an Error entry, red on stderr, labelled ERROR; a rejected message that does not fail prints nothing; a running process prints exactly `log`'s lines, the creating notice included; a panic in `log`, such as an unknown `log_level`, ends the process as that panic with `log`'s file effects and console lines |
| `Sessions.DispatchStep` | src/log.rs:19-33 | with file logging on to a writable file, one call succeeds, appends its line only if it passes, and leaves the configuration as it was |
| `Sessions.LogFileGrowsByPassingLines` | src/log.rs:19-65 | with file logging on, a run of calls appends exactly the lines of the passing messages, in call order, after the old contents, and prints exactly those messages |
| `Sessions.FileUntouchedWhenDisabled` | src/log.rs:23-30 | with `write_to_log_file` not `Some(true)`, no run of calls creates or changes any file |
| `Sessions.InitThenLogHoldsExactlyPassingLines` | src/lib.rs:43-54 | `init` on a missing log file followed by a run of calls leaves exactly the passing lines in the file |
| `Sessions.PassingLinesCount` | src/log.rs:44-49 | the appended text holds one newline per passing message |
| `Sessions.CrateDocExample` | src/lib.rs:10-31 | with the documented `Dzl.toml`, the six example calls append DEBUG, WARN, ERROR and CustomType lines, in that order, and print four lines |
| `Sessions.DocCallsUnderDebug` | src/lib.rs:24-31 | under `debug`, the example's TRACE and INFO calls are dropped and the other four kept |

## Left out

- Terminal output: termcolor's streams are reduced to the stream chosen and the colour set. The `.unwrap()` on each `write!` is taken never to fail.
- The clock: `OffsetDateTime::now_local()` and its formatting are one opaque timestamp per call. The source reads the clock separately for the console line, the file line and the retry, so their timestamps may differ there. The panic of `now_local().unwrap()` is not modelled.
- TOML deserialisation is the `parse` parameter. Reading `Dzl.toml` goes through the file-system map.
- Process exit is the `Process` value. The runtime's printing of a panic message is not modelled.
- Lost updates when several processes run the read-modify-write append at once: the model is sequential.
- `File::create` on a missing path always succeeds, because parent directories are not modelled. So the `?` after it in `init`, and in `write_log` for a missing file, never fails in the model.
- I/O error kinds: only eleven `ErrorKind`s are listed. The error kind for a non-UTF-8 file (`InvalidData`) and for a refused file (`PermissionDenied`) are the model's choice.
- Sessions.LogFileGrowsByPassingLines: paths are compared as strings, so another spelling of `Dzl.toml` (`./Dzl.toml`, a link, a different case on a case-insensitive file system) counts as a different file. The requirement that the log path is not `Dzl.toml` therefore excludes only the same spelling; a log path aliasing the configuration file is not modelled.
- Sessions.DispatchStep: the same string comparison of paths; a log path that aliases `Dzl.toml` under another spelling is not modelled.
- Logging.WriteLogAsWritten: running out of stack aborts a Rust process rather than unwinding; the model reports it as a panic carrying Rust's message.
- The entry points and `log` use the corrected `Logging.WriteLog` (see Findings). They differ from the code only on a write-only log file.
- The files under `src/loggers/` are not part of this model. No module declares them, and they call `Config::write` and `Log::Init`, which do not exist.
- The `if let Some(log_path)` in `write_log` (src/log.rs:69) cannot fail after the `expect` above it. It is folded into the panic on a missing path.

## Findings

| source | as written | input that shows it | evidently intended | confidence | as-written member | corrected member |
|---|---|---|---|---|---|---|
| src/log.rs:66-74 | when the log file cannot be read or opened, `write_log` creates it and calls itself with the same recovery path | a log file the process may write but not read (mode 0200): the read fails, the open fails, `File::create` succeeds and truncates it, and the recursive call starts over, until the stack is used up | create the file and retry the append once | not executed | `Logging.WriteLogAsWritten` | `Logging.WriteLog` |

=== FILE: configuration.dfy ===
/**
 * `src/config.rs`: the three optional settings read from `Dzl.toml`, the
 * built-in defaults, and the mapping from the `log_level` string to a
 * threshold. TOML parsing is a parameter (`parse`): it yields the three
 * fields as written in the file, or nothing when the text is malformed.
 */
module Configuration {
  import opened Options
  import opened Errors
  import opened FileSystem
  import opened Levels

  /** Every field is optional: a key missing from the file stays `None`. */
  datatype Config = Config(writeToLogFile: Option<bool>, logPath: Option<string>, logLevel: Option<string>)

  const ConfigFile: Path := "Dzl.toml"
  const ParseFailure: string := "Failed to parse the config file, please check your file format"
  const UnknownLevel: string := "Unknown log level"

  /** The level names `log_level` accepts. */
  const LevelNames: set<string> := {"trace", "debug", "info", "warn", "error", "custom"}

  /** `Config::default()` (and `Config::new()`): file logging on, `dzl.log`, threshold `custom`. */
  function Default(): (c: Config)
    ensures c.writeToLogFile == Some(true)
    ensures c.logPath == Some("dzl.log")
    ensures LogLevel(c) == Ok(Some(Custom("", "")))
  {
    Config(Some(true), Some("dzl.log"), Some("custom"))
  }

  /**
   * `Config::read`. The receiver is not consulted, so the defaults never fill
   * in a key the file leaves out.
   */
  function Read(fs: Fs, parse: string -> Option<Config>): (r: Res<Config>)
    ensures !r.Panic?
    ensures ConfigFile !in fs ==> r == Err(IOError(NotFoundMessage))
    ensures ReadToString(fs, ConfigFile).IoErr? ==> r == Err(FromIo(ReadToString(fs, ConfigFile).kind))
    ensures ConfigFile in fs && !fs[ConfigFile].readable ==> r == Err(IOError(PermissionDeniedMessage))
    ensures r.Ok? <==> ReadToString(fs, ConfigFile).IoOk? && parse(fs[ConfigFile].body.content).Some?
    ensures r.Ok? ==> r.value == parse(fs[ConfigFile].body.content).value
    ensures ReadToString(fs, ConfigFile).IoOk? && parse(fs[ConfigFile].body.content).None? ==>
              r == Err(ParseError(ParseFailure))
  {
    match ReadToString(fs, ConfigFile)
    case IoErr(k) => Err(FromIo(k))
    case IoOk(text) =>
      match parse(text)
      case None => Err(ParseError(ParseFailure))
      case Some(c) => Ok(Config(c.writeToLogFile, c.logPath, c.logLevel))
  }

  /**
   * `Config::log_level`: the threshold named by the `log_level` setting,
   * with empty payloads; an unknown name panics.
   */
  function LogLevel(c: Config): (r: Res<Option<Log>>)
    ensures r.Ok? || r.Panic?
    ensures r.Panic? <==> c.logLevel.Some? && c.logLevel.value !in LevelNames
    ensures r.Panic? ==> r.message == UnknownLevel
    ensures c.logLevel.None? ==> r == Ok(None)
    ensures r.Ok? && r.value.Some? ==>
              IsThreshold(r.value.value) && c.logLevel == Some(LevelName(r.value.value))
  {
    match c.logLevel
    case None => Ok(None)
    case Some(level) =>
      if level == "trace" then Ok(Some(Trace("")))
      else if level == "debug" then Ok(Some(Debug("")))
      else if level == "info" then Ok(Some(Info("")))
      else if level == "warn" then Ok(Some(Warn("")))
      else if level == "error" then Ok(Some(Error("")))
      else if level == "custom" then Ok(Some(Custom("", "")))
      else Panic(UnknownLevel)
  }

  /** The `log_level` string that names a level: the inverse of `LogLevel`. */
  function LevelName(t: Log): (name: string)
    ensures name in LevelNames
  {
    match t
    case Trace(_) => "trace"
    case Debug(_) => "debug"
    case Info(_) => "info"
    case Warn(_) => "warn"
    case Error(_) => "error"
    case Custom(_, _) => "custom"
  }

  /** Every threshold can be configured, by its own name and by no other. */
  lemma LevelNameRoundTrip(t: Log, c: Config)
    requires IsThreshold(t)
    ensures c.logLevel == Some(LevelName(t)) <==> LogLevel(c) == Ok(Some(t))
  {
  }
}

=== FILE: errors.dfy ===
/**
 * The crate's error type `CustomError` and the conversion from `std::io::Error`.
 * An I/O error is represented by its `ErrorKind` only: the conversion looks at
 * nothing else.
 */
module Errors {

  /** The `std::io::ErrorKind` values the model distinguishes. */
  datatype IoKind =
    | NotFound
    | PermissionDenied
    | AlreadyExists
    | InvalidInput
    | InvalidData
    | UnexpectedEof
    | WriteZero
    | Interrupted
    | Unsupported
    | OutOfMemory
    | Other

  /** The `{:?}` rendering of a kind: its variant name. */
  function KindName(k: IoKind): string {
    match k
    case NotFound => "NotFound"
    case PermissionDenied => "PermissionDenied"
    case AlreadyExists => "AlreadyExists"
    case InvalidInput => "InvalidInput"
    case InvalidData => "InvalidData"
    case UnexpectedEof => "UnexpectedEof"
    case WriteZero => "WriteZero"
    case Interrupted => "Interrupted"
    case Unsupported => "Unsupported"
    case OutOfMemory => "OutOfMemory"
    case Other => "Other"
  }

  datatype CustomError = IOError(msg: string) | ParseError(msg: string)

  const NotFoundMessage: string := "Config file `Dzl.toml` not found"
  const PermissionDeniedMessage: string := "Permission denied, please check the config file's permissions"
  const OtherPrefix: string := "Other IO errors: "

  /**
   * `From<io::Error> for CustomError`. Every I/O error becomes an `IOError`;
   * a missing file is always reported as the missing config file, whichever
   * file it was.
   */
  function FromIo(k: IoKind): (e: CustomError)
    ensures e.IOError?
    ensures k == NotFound <==> e.msg == NotFoundMessage
    ensures k == PermissionDenied <==> e.msg == PermissionDeniedMessage
    ensures k != NotFound && k != PermissionDenied ==>
              |e.msg| > |OtherPrefix| && e.msg[..|OtherPrefix|] == OtherPrefix
              && e.msg[|OtherPrefix|..] == KindName(k)
  {
    match k
    case NotFound => IOError(NotFoundMessage)
    case PermissionDenied => IOError(PermissionDeniedMessage)
    case _ =>
      var m := OtherPrefix + KindName(k);
      assert m[..|OtherPrefix|] == OtherPrefix;
      assert m[|OtherPrefix|..] == KindName(k);
      assert m[0] == 'O';
      IOError(m)
  }

  /** The converted error's message identifies the I/O error kind it came from. */
  lemma FromIoInjective(a: IoKind, b: IoKind)
    ensures FromIo(a) == FromIo(b) ==> a == b
  {
  }

  /**
   * The outcome of a fallible operation of the crate: a value, a
   * `CustomError` returned through `Result`, or a panic (which unwinds past
   * every `Result` handler).
   */
  datatype Res<T> = Ok(value: T) | Err(error: CustomError) | Panic(message: string)
}

=== FILE: filesystem.dfy ===
/**
 * The file system as an immutable map from paths to file states, with the
 * four `std::fs` operations the crate uses. A path that is not in the map does
 * not exist; creating it always succeeds (its directory is taken to exist).
 * Paths are compared as strings: each key names a different file.
 */
module FileSystem {
  import opened Errors

  type Path = string

  /** What a file holds: UTF-8 text, or bytes that are not valid UTF-8. */
  datatype Body = Text(content: string) | Binary

  /**
   * A file with its contents and the two permissions the process has on it:
   * `readable` (opening for reading is allowed) and `writable` (opening for
   * writing, with or without truncation, is allowed).
   */
  datatype FileState = FileState(body: Body, readable: bool, writable: bool)

  type Fs = map<Path, FileState>

  /** `std::io::Result` reduced to the error kind. */
  datatype IoResult<T> = IoOk(value: T) | IoErr(kind: IoKind)

  /** A readable, writable text file: what `File::create` makes at a new path. */
  function Fresh(content: string): FileState {
    FileState(Text(content), true, true)
  }

  /** `fs::read_to_string`. */
  function ReadToString(fs: Fs, p: Path): (r: IoResult<string>)
    ensures r.IoOk? <==> p in fs && fs[p].readable && fs[p].body.Text?
    ensures r.IoOk? ==> r.value == fs[p].body.content
  {
    if p !in fs then IoErr(NotFound)
    else if !fs[p].readable then IoErr(PermissionDenied)
    else match fs[p].body
      case Text(c) => IoOk(c)
      case Binary => IoErr(InvalidData)
  }

  /** `fs::File::open`: opening for reading; the file handle itself is not modelled. */
  function Open(fs: Fs, p: Path): (r: IoResult<()>)
    ensures r.IoErr? <==> p !in fs || !fs[p].readable
    ensures r.IoErr? ==> (r.kind == NotFound <==> p !in fs)
  {
    if p !in fs then IoErr(NotFound)
    else if !fs[p].readable then IoErr(PermissionDenied)
    else IoOk(())
  }

  /** True when opening `p` for writing succeeds, creating it if needed. */
  predicate Writable(fs: Fs, p: Path) {
    p !in fs || fs[p].writable
  }

  /** `fs::write`: creates or truncates the file and stores `data` in it; an existing file keeps its permissions. */
  function Write(fs: Fs, p: Path, data: string): (r: IoResult<Fs>)
    ensures r.IoOk? <==> Writable(fs, p)
    ensures r.IoOk? && p !in fs ==> r.value == fs[p := Fresh(data)]
    ensures r.IoOk? && p in fs ==> r.value == fs[p := FileState(Text(data), fs[p].readable, true)]
    ensures r.IoErr? ==> r.kind == PermissionDenied
  {
    if p !in fs then IoOk(fs[p := Fresh(data)])
    else if fs[p].writable then IoOk(fs[p := FileState(Text(data), fs[p].readable, true)])
    else IoErr(PermissionDenied)
  }

  /** `fs::File::create`: creates the file, truncating one that exists. */
  function Create(fs: Fs, p: Path): (r: IoResult<Fs>)
    ensures r.IoOk? <==> Writable(fs, p)
    ensures r.IoOk? && p !in fs ==> r.value == fs[p := Fresh("")]
    ensures r.IoOk? && p in fs ==> r.value == fs[p := FileState(Text(""), fs[p].readable, true)]
    ensures r.IoErr? ==> r.kind == PermissionDenied
  {
    Write(fs, p, "")
  }
}

=== FILE: levels.dfy ===
/**
 * The `Log` enum of `src/log.rs`: one variant per severity, each carrying the
 * message text, and `Custom` carrying a caller-chosen label before the text.
 * Its order is the one `#[derive(PartialOrd, Ord)]` gives it: the position of
 * the variant in the declaration first, then the payload strings
 * lexicographically.
 */
module Levels {

  datatype Log =
    | Trace(content: string)
    | Info(content: string)
    | Debug(content: string)
    | Warn(content: string)
    | Error(content: string)
    | Custom(logType: string, content: string)

  /** Declaration position of the variant. Note that `Info` is declared before `Debug`. */
  function Rank(l: Log): nat {
    match l
    case Trace(_) => 0
    case Info(_) => 1
    case Debug(_) => 2
    case Warn(_) => 3
    case Error(_) => 4
    case Custom(_, _) => 5
  }

  // ---------------------------------------------------------------------------
  // Lexicographic order on strings (Rust's `Ord for String`). Rust compares the
  // UTF-8 bytes; UTF-8 preserves the order of code points, so comparing the
  // characters gives the same answer.

  predicate StrLe(a: string, b: string)
    decreases |a|
  {
    if |a| == 0 then true
    else if |b| == 0 then false
    else if a[0] != b[0] then a[0] < b[0]
    else StrLe(a[1..], b[1..])
  }

  predicate StrLt(a: string, b: string) {
    StrLe(a, b) && a != b
  }

  /** Reference definition: `a` is a prefix of `b`, or they first differ at a position where `a` is smaller. */
  ghost predicate LexLe(a: string, b: string) {
    a <= b || exists k :: 0 <= k < |a| && k < |b| && a[..k] == b[..k] && a[k] < b[k]
  }

  lemma LexLeHeadsDiffer(a: string, b: string)
    requires |a| > 0 && |b| > 0 && a[0] != b[0]
    ensures LexLe(a, b) <==> a[0] < b[0]
  {
  }

  lemma LexLeTails(a: string, b: string)
    requires |a| > 0 && |b| > 0 && a[0] == b[0]
    ensures LexLe(a[1..], b[1..]) ==> LexLe(a, b)
  {
    var a', b' := a[1..], b[1..];
    if LexLe(a', b') {
      if a' <= b' {
        assert a == [a[0]] + a';
        assert b[..|a|] == [b[0]] + b'[..|a'|];
      } else {
        var k :| 0 <= k < |a'| && k < |b'| && a'[..k] == b'[..k] && a'[k] < b'[k];
        assert a[..k + 1] == [a[0]] + a'[..k];
        assert b[..k + 1] == [b[0]] + b'[..k];
        assert a[k + 1] < b[k + 1];
      }
    }
  }

  lemma LexLeHeads(a: string, b: string)
    requires |a| > 0 && |b| > 0 && a[0] == b[0]
    ensures LexLe(a, b) ==> LexLe(a[1..], b[1..])
  {
    var a', b' := a[1..], b[1..];
    if LexLe(a, b) {
      if a <= b {
        assert b'[..|a'|] == b[1..|a|];
      } else {
        var k :| 0 <= k < |a| && k < |b| && a[..k] == b[..k] && a[k] < b[k];
        assert k != 0;
        assert a'[..k - 1] == a[1..k];
        assert b'[..k - 1] == b[1..k];
        assert a'[k - 1] < b'[k - 1];
      }
    }
  }

  /** The recursive comparison agrees with the reference definition of lexicographic order. */
  lemma {:induction false} StrLeIsLexicographic(a: string, b: string)
    ensures StrLe(a, b) <==> LexLe(a, b)
    decreases |a|
  {
    if |a| == 0 {
      assert a <= b;
    } else if |b| == 0 {
      assert !(a <= b);
    } else if a[0] != b[0] {
      LexLeHeadsDiffer(a, b);
    } else {
      StrLeIsLexicographic(a[1..], b[1..]);
      LexLeTails(a, b);
      LexLeHeads(a, b);
    }
  }

  lemma {:induction false} StrLeReflexive(a: string)
    ensures StrLe(a, a)
    decreases |a|
  {
    if |a| > 0 {
      StrLeReflexive(a[1..]);
    }
  }

  lemma {:induction false} StrLeAntisymmetric(a: string, b: string)
    requires StrLe(a, b) && StrLe(b, a)
    ensures a == b
    decreases |a|
  {
    if |a| > 0 {
      StrLeAntisymmetric(a[1..], b[1..]);
      assert a == [a[0]] + a[1..] && b == [b[0]] + b[1..];
    }
  }

  lemma {:induction false} StrLeTransitive(a: string, b: string, c: string)
    requires StrLe(a, b) && StrLe(b, c)
    ensures StrLe(a, c)
    decreases |a|
  {
    if |a| > 0 && a[0] == b[0] && b[0] == c[0] {
      StrLeTransitive(a[1..], b[1..], c[1..]);
    }
  }

  lemma {:induction false} StrLeTotal(a: string, b: string)
    ensures StrLe(a, b) || StrLe(b, a)
    decreases |a|
  {
    if |a| > 0 && |b| > 0 && a[0] == b[0] {
      StrLeTotal(a[1..], b[1..]);
    }
  }

  // ---------------------------------------------------------------------------
  // The derived order on `Log`.

  /** `a <= b` under `#[derive(PartialOrd, Ord)]`. */
  predicate LogLe(a: Log, b: Log) {
    if Rank(a) != Rank(b) then Rank(a) < Rank(b)
    else if a.Custom? && b.Custom? then
      StrLt(a.logType, b.logType) || (a.logType == b.logType && StrLe(a.content, b.content))
    else StrLe(a.content, b.content)
  }

  lemma LogLeReflexive(a: Log)
    ensures LogLe(a, a)
  {
    StrLeReflexive(a.content);
  }

  lemma LogLeAntisymmetric(a: Log, b: Log)
    requires LogLe(a, b) && LogLe(b, a)
    ensures a == b
  {
    if a.Custom? && b.Custom? {
      if a.logType != b.logType {
        StrLeAntisymmetric(a.logType, b.logType);
      }
    }
    StrLeAntisymmetric(a.content, b.content);
  }

  lemma LogLeTransitive(a: Log, b: Log, c: Log)
    requires LogLe(a, b) && LogLe(b, c)
    ensures LogLe(a, c)
  {
    if Rank(a) == Rank(b) == Rank(c) {
      if a.Custom? {
        assert b.Custom? && c.Custom?;
        StrLeReflexive(a.logType);
        StrLeReflexive(b.logType);
        if a.logType == b.logType == c.logType {
          StrLeTransitive(a.content, b.content, c.content);
        } else {
          StrLeTransitive(a.logType, b.logType, c.logType);
          if a.logType == c.logType {
            StrLeAntisymmetric(a.logType, b.logType);
          }
        }
      } else {
        StrLeTransitive(a.content, b.content, c.content);
      }
    }
  }

  lemma LogLeTotal(a: Log, b: Log)
    ensures LogLe(a, b) || LogLe(b, a)
  {
    StrLeTotal(a.content, b.content);
    if a.Custom? && b.Custom? {
      StrLeTotal(a.logType, b.logType);
    }
  }

  /** A threshold as the configuration builds it: a level whose payload strings are all empty. */
  predicate IsThreshold(t: Log) {
    t.content == "" && (t.Custom? ==> t.logType == "")
  }

  /** Against an empty-payload threshold the derived order is the rank order alone. */
  lemma ThresholdComparesRank(t: Log, l: Log)
    requires IsThreshold(t)
    ensures LogLe(t, l) <==> Rank(t) <= Rank(l)
  {
  }

  // ---------------------------------------------------------------------------
  // Labels and colours.

  /** `Log::get_level`: the label printed after the timestamp. */
  function GetLevel(l: Log): (name: string)
    ensures l.Custom? ==> name == l.logType
    ensures l.Trace? ==> name == "TRACE"
    ensures l.Info? ==> name == "INFO"
    ensures l.Debug? ==> name == "DEBUG"
    ensures l.Warn? ==> name == "WARN"
    ensures l.Error? ==> name == "ERROR"
  {
    match l
    case Custom(t, _) => t
    case Trace(_) => "TRACE"
    case Info(_) => "INFO"
    case Debug(_) => "DEBUG"
    case Warn(_) => "WARN"
    case Error(_) => "ERROR"
  }

  /** The label of a built-in level names its variant: two built-in levels share a label exactly when they are the same variant. */
  lemma BuiltinLabelsIdentifyVariant(a: Log, b: Log)
    requires !a.Custom? && !b.Custom?
    ensures GetLevel(a) == GetLevel(b) <==> Rank(a) == Rank(b)
  {
  }

  datatype Color = Green | Yellow | Red | Blue

  /** `Log::get_color`. */
  function GetColor(l: Log): (c: Color)
    ensures c == Red <==> l.Error?
    ensures c == Yellow <==> l.Warn?
    ensures c == Blue <==> l.Custom?
    ensures c == Green <==> Rank(l) <= 2
  {
    match l
    case Trace(_) => Green
    case Info(_) => Green
    case Debug(_) => Green
    case Warn(_) => Yellow
    case Error(_) => Red
    case Custom(_, _) => Blue
  }
}

=== FILE: lib.dfy ===
/** `init` of `src/lib.rs`: make sure the configured log file exists. */
module Lib {
  import opened Options
  import opened Errors
  import opened FileSystem
  import opened Configuration
  import opened Logging

  /**
   * `init`: read the configuration and, when a log path is set and opening it
   * reports that it does not exist, create it empty. Any other open failure is
   * ignored; an existing file is never truncated and nothing is written to it.
   * `write_to_log_file` is not consulted.
   */
  function Init(fs: Fs, parse: string -> Option<Config>): (e: Effect)
    ensures e.console == []
    ensures e.result.Ok? <==> Read(fs, parse).Ok?
    ensures Read(fs, parse).Err? ==> e == Effect(Err(Read(fs, parse).error), fs, [])
    ensures Read(fs, parse).Ok? && Read(fs, parse).value.logPath.None? ==> e.fs == fs
    ensures Read(fs, parse).Ok? && Read(fs, parse).value.logPath.Some? ==>
              var p := Read(fs, parse).value.logPath.value;
              e.fs == if p in fs then fs else fs[p := Fresh("")]
  {
    var cfg := Read(fs, parse);
    if !cfg.Ok? then Effect(Err(cfg.error), fs, [])
    else match cfg.value.logPath
      case None => Effect(Ok(()), fs, [])
      case Some(p) =>
        var handle := Open(fs, p);
        if handle.IoErr? && handle.kind == NotFound then
          match Create(fs, p)
          case IoOk(created) => Effect(Ok(()), created, [])
          case IoErr(k) => Effect(Err(FromIo(k)), fs, [])
        else
          Effect(Ok(()), fs, [])
  }

  /** Calling `init` a second time changes nothing: the file it created is not touched again. */
  lemma InitIsIdempotent(fs: Fs, parse: string -> Option<Config>)
    ensures Init(Init(fs, parse).fs, parse) == Effect(Init(fs, parse).result, Init(fs, parse).fs, [])
  {
  }
}

=== FILE: loggers.dfy ===
/**
 * The public entry points of `src/loggers.rs`. Each builds one `Log` value,
 * hands it to the dispatcher and passes the result to `handle_error`, which
 * ends the process with status 1 on an error.
 */
module Loggers {
  import opened Options
  import opened Errors
  import opened FileSystem
  import Levels
  import opened Configuration
  import opened Logging

  /** The state of the process after an entry point returns (or does not). */
  datatype Process = Running | Exited(code: int) | Panicked(message: string)

  datatype Run = Run(process: Process, fs: Fs, console: seq<Printed>)

  /**
   * `handle_error`: nothing on success; on either kind of error, its message
   * on stderr and exit status 1. A panic is not a `Result` and passes through.
   */
  function HandleError(r: Res<()>): (h: (Process, seq<Printed>))
    ensures r.Ok? <==> h.0 == Running
    ensures r.Ok? ==> h.1 == []
    ensures r.Err? ==> h.0 == Exited(1) && h.1 == [Printed(Stderr, None, r.error.msg + "\n")]
    ensures r.Panic? ==> h == (Panicked(r.message), [])
  {
    match r
    case Ok(_) => (Running, [])
    case Err(IOError(msg)) => (Exited(1), [Printed(Stderr, None, msg + "\n")])
    case Err(ParseError(msg)) => (Exited(1), [Printed(Stderr, None, msg + "\n")])
    case Panic(m) => (Panicked(m), [])
  }

  /** One entry point: dispatch `l`, then handle the error. */
  function Emit(fs: Fs, parse: string -> Option<Config>, ts: string, colorFault: Option<IoKind>, l: Levels.Log): (run: Run)
    ensures var e := Dispatch(fs, parse, ts, colorFault, l);
            && run.fs == e.fs
            && (run.process == Running <==> e.result.Ok?)
            && (run.process == Exited(1) <==> e.result.Err?)
            && |e.console| <= |run.console|
            && run.console[..|e.console|] == e.console
    ensures run.process == Running && run.console != [] ==>
              Passes(fs, parse, l) && run.console[0] == PrintLog(l, ts, None).value
    ensures Passes(fs, parse, l) && colorFault.None? ==>
              run.console != [] && run.console[0] == PrintLog(l, ts, None).value
    ensures !Passes(fs, parse, l) && run.process == Running ==> run.console == []
    ensures var e := Dispatch(fs, parse, ts, colorFault, l);
            run.process == Exited(1) ==> run.console == e.console + [Printed(Stderr, None, e.result.error.msg + "\n")]
    ensures var e := Dispatch(fs, parse, ts, colorFault, l);
            run.process == Running ==> run.console == e.console
    ensures var e := Dispatch(fs, parse, ts, colorFault, l);
            e.result.Panic? ==> run == Run(Panicked(e.result.message), e.fs, e.console)
  {
    var e := Dispatch(fs, parse, ts, colorFault, l);
    var (status, out) := HandleError(e.result);
    assert (e.console + out)[..|e.console|] == e.console;
    Run(status, e.fs, e.console + out)
  }

  /** `custom(log_type, content)`: the type is the label, printed in blue on stdout, before the content. */
  function Custom(fs: Fs, parse: string -> Option<Config>, ts: string, colorFault: Option<IoKind>, logType: string, content: string): (run: Run)
    ensures run.fs == Dispatch(fs, parse, ts, colorFault, Levels.Custom(logType, content)).fs
    ensures run.process == Running <==> Dispatch(fs, parse, ts, colorFault, Levels.Custom(logType, content)).result.Ok?
    ensures run.process == Exited(1) <==> Dispatch(fs, parse, ts, colorFault, Levels.Custom(logType, content)).result.Err?
    ensures run.process == Running ==> run.console == Dispatch(fs, parse, ts, colorFault, Levels.Custom(logType, content)).console
    ensures Dispatch(fs, parse, ts, colorFault, Levels.Custom(logType, content)).result.Panic? ==>
              run == Run(Panicked(Dispatch(fs, parse, ts, colorFault, Levels.Custom(logType, content)).result.message), Dispatch(fs, parse, ts, colorFault, Levels.Custom(logType, content)).fs, Dispatch(fs, parse, ts, colorFault, Levels.Custom(logType, content)).console)
    ensures run.process == Running && run.console != [] ==>
              run.console[0] == Printed(Stdout, Some(Levels.Blue), ts + " " + logType + " " + content + "\n")
    ensures Passes(fs, parse, Levels.Custom(logType, content)) && colorFault.None? ==>
              run.console != [] && run.console[0] == Printed(Stdout, Some(Levels.Blue), ts + " " + logType + " " + content + "\n")
    ensures !Passes(fs, parse, Levels.Custom(logType, content)) && run.process == Running ==> run.console == []
    ensures run.process == Exited(1) ==>
              run.console != [] && run.console[|run.console| - 1] == Printed(Stderr, None, Dispatch(fs, parse, ts, colorFault, Levels.Custom(logType, content)).result.error.msg + "\n")
  {
    Emit(fs, parse, ts, colorFault, Levels.Custom(logType, content))
  }

  /** `trace(content)`: printed in green on stdout under the label TRACE. */
  function Trace(fs: Fs, parse: string -> Option<Config>, ts: string, colorFault: Option<IoKind>, content: string): (run: Run)
    ensures run.fs == Dispatch(fs, parse, ts, colorFault, Levels.Trace(content)).fs
    ensures run.process == Running <==> Dispatch(fs, parse, ts, colorFault, Levels.Trace(content)).result.Ok?
    ensures run.process == Exited(1) <==> Dispatch(fs, parse, ts, colorFault, Levels.Trace(content)).result.Err?
    ensures run.process == Running ==> run.console == Dispatch(fs, parse, ts, colorFault, Levels.Trace(content)).console
    ensures Dispatch(fs, parse, ts, colorFault, Levels.Trace(content)).result.Panic? ==>
              run == Run(Panicked(Dispatch(fs, parse, ts, colorFault, Levels.Trace(content)).result.message), Dispatch(fs, parse, ts, colorFault, Levels.Trace(content)).fs, Dispatch(fs, parse, ts, colorFault, Levels.Trace(content)).console)
    ensures run.process == Running && run.console != [] ==>
              run.console[0] == Printed(Stdout, Some(Levels.Green), ts + " TRACE " + content + "\n")
    ensures Passes(fs, parse, Levels.Trace(content)) && colorFault.None? ==>
              run.console != [] && run.console[0] == Printed(Stdout, Some(Levels.Green), ts + " TRACE " + content + "\n")
    ensures !Passes(fs, parse, Levels.Trace(content)) && run.process == Running ==> run.console == []
    ensures run.process == Exited(1) ==>
              run.console != [] && run.console[|run.console| - 1] == Printed(Stderr, None, Dispatch(fs, parse, ts, colorFault, Levels.Trace(content)).result.error.msg + "\n")
  {
    Emit(fs, parse, ts, colorFault, Levels.Trace(content))
  }

  /** `debug(content)`: printed in green on stdout under the label DEBUG. */
  function Debug(fs: Fs, parse: string -> Option<Config>, ts: string, colorFault: Option<IoKind>, content: string): (run: Run)
    ensures run.fs == Dispatch(fs, parse, ts, colorFault, Levels.Debug(content)).fs
    ensures run.process == Running <==> Dispatch(fs, parse, ts, colorFault, Levels.Debug(content)).result.Ok?
    ensures run.process == Exited(1) <==> Dispatch(fs, parse, ts, colorFault, Levels.Debug(content)).result.Err?
    ensures run.process == Running ==> run.console == Dispatch(fs, parse, ts, colorFault, Levels.Debug(content)).console
    ensures Dispatch(fs, parse, ts, colorFault, Levels.Debug(content)).result.Panic? ==>
              run == Run(Panicked(Dispatch(fs, parse, ts, colorFault, Levels.Debug(content)).result.message), Dispatch(fs, parse, ts, colorFault, Levels.Debug(content)).fs, Dispatch(fs, parse, ts, colorFault, Levels.Debug(content)).console)
    ensures run.process == Running && run.console != [] ==>
              run.console[0] == Printed(Stdout, Some(Levels.Green), ts + " DEBUG " + content + "\n")
    ensures Passes(fs, parse, Levels.Debug(content)) && colorFault.None? ==>
              run.console != [] && run.console[0] == Printed(Stdout, Some(Levels.Green), ts + " DEBUG " + content + "\n")
    ensures !Passes(fs, parse, Levels.Debug(content)) && run.process == Running ==> run.console == []
    ensures run.process == Exited(1) ==>
              run.console != [] && run.console[|run.console| - 1] == Printed(Stderr, None, Dispatch(fs, parse, ts, colorFault, Levels.Debug(content)).result.error.msg + "\n")
  {
    Emit(fs, parse, ts, colorFault, Levels.Debug(content))
  }

  /** `info(content)`: printed in green on stdout under the label INFO. */
  function Info(fs: Fs, parse: string -> Option<Config>, ts: string, colorFault: Option<IoKind>, content: string): (run: Run)
    ensures run.fs == Dispatch(fs, parse, ts, colorFault, Levels.Info(content)).fs
    ensures run.process == Running <==> Dispatch(fs, parse, ts, colorFault, Levels.Info(content)).result.Ok?
    ensures run.process == Exited(1) <==> Dispatch(fs, parse, ts, colorFault, Levels.Info(content)).result.Err?
    ensures run.process == Running ==> run.console == Dispatch(fs, parse, ts, colorFault, Levels.Info(content)).console
    ensures Dispatch(fs, parse, ts, colorFault, Levels.Info(content)).result.Panic? ==>
              run == Run(Panicked(Dispatch(fs, parse, ts, colorFault, Levels.Info(content)).result.message), Dispatch(fs, parse, ts, colorFault, Levels.Info(content)).fs, Dispatch(fs, parse, ts, colorFault, Levels.Info(content)).console)
    ensures run.process == Running && run.console != [] ==>
              run.console[0] == Printed(Stdout, Some(Levels.Green), ts + " INFO " + content + "\n")
    ensures Passes(fs, parse, Levels.Info(content)) && colorFault.None? ==>
              run.console != [] && run.console[0] == Printed(Stdout, Some(Levels.Green), ts + " INFO " + content + "\n")
    ensures !Passes(fs, parse, Levels.Info(content)) && run.process == Running ==> run.console == []
    ensures run.process == Exited(1) ==>
              run.console != [] && run.console[|run.console| - 1] == Printed(Stderr, None, Dispatch(fs, parse, ts, colorFault, Levels.Info(content)).result.error.msg + "\n")
  {
    Emit(fs, parse, ts, colorFault, Levels.Info(content))
  }

  /** `warn(content)`: printed in yellow on stdout under the label WARN. */
  function Warn(fs: Fs, parse: string -> Option<Config>, ts: string, colorFault: Option<IoKind>, content: string): (run: Run)
    ensures run.fs == Dispatch(fs, parse, ts, colorFault, Levels.Warn(content)).fs
    ensures run.process == Running <==> Dispatch(fs, parse, ts, colorFault, Levels.Warn(content)).result.Ok?
    ensures run.process == Exited(1) <==> Dispatch(fs, parse, ts, colorFault, Levels.Warn(content)).result.Err?
    ensures run.process == Running ==> run.console == Dispatch(fs, parse, ts, colorFault, Levels.Warn(content)).console
    ensures Dispatch(fs, parse, ts, colorFault, Levels.Warn(content)).result.Panic? ==>
              run == Run(Panicked(Dispatch(fs, parse, ts, colorFault, Levels.Warn(content)).result.message), Dispatch(fs, parse, ts, colorFault, Levels.Warn(content)).fs, Dispatch(fs, parse, ts, colorFault, Levels.Warn(content)).console)
    ensures run.process == Running && run.console != [] ==>
              run.console[0] == Printed(Stdout, Some(Levels.Yellow), ts + " WARN " + content + "\n")
    ensures Passes(fs, parse, Levels.Warn(content)) && colorFault.None? ==>
              run.console != [] && run.console[0] == Printed(Stdout, Some(Levels.Yellow), ts + " WARN " + content + "\n")
    ensures !Passes(fs, parse, Levels.Warn(content)) && run.process == Running ==> run.console == []
    ensures run.process == Exited(1) ==>
              run.console != [] && run.console[|run.console| - 1] == Printed(Stderr, None, Dispatch(fs, parse, ts, colorFault, Levels.Warn(content)).result.error.msg + "\n")
  {
    Emit(fs, parse, ts, colorFault, Levels.Warn(content))
  }

  /** `error(content)`: printed in red on stderr under the label ERROR. */
  function Error(fs: Fs, parse: string -> Option<Config>, ts: string, colorFault: Option<IoKind>, content: string): (run: Run)
    ensures run.fs == Dispatch(fs, parse, ts, colorFault, Levels.Error(content)).fs
    ensures run.process == Running <==> Dispatch(fs, parse, ts, colorFault, Levels.Error(content)).result.Ok?
    ensures run.process == Exited(1) <==> Dispatch(fs, parse, ts, colorFault, Levels.Error(content)).result.Err?
    ensures run.process == Running ==> run.console == Dispatch(fs, parse, ts, colorFault, Levels.Error(content)).console
    ensures Dispatch(fs, parse, ts, colorFault, Levels.Error(content)).result.Panic? ==>
              run == Run(Panicked(Dispatch(fs, parse, ts, colorFault, Levels.Error(content)).result.message), Dispatch(fs, parse, ts, colorFault, Levels.Error(content)).fs, Dispatch(fs, parse, ts, colorFault, Levels.Error(content)).console)
    ensures run.process == Running && run.console != [] ==>
              run.console[0] == Printed(Stderr, Some(Levels.Red), ts + " ERROR " + content + "\n")
    ensures Passes(fs, parse, Levels.Error(content)) && colorFault.None? ==>
              run.console != [] && run.console[0] == Printed(Stderr, Some(Levels.Red), ts + " ERROR " + content + "\n")
    ensures !Passes(fs, parse, Levels.Error(content)) && run.process == Running ==> run.console == []
    ensures run.process == Exited(1) ==>
              run.console != [] && run.console[|run.console| - 1] == Printed(Stderr, None, Dispatch(fs, parse, ts, colorFault, Levels.Error(content)).result.error.msg + "\n")
  {
    Emit(fs, parse, ts, colorFault, Levels.Error(content))
  }
}

=== FILE: logging.dfy ===
/**
 * The logging pipeline of `src/log.rs`: the level filter, console printing,
 * the read-modify-write append to the log file, and the `log` dispatcher
 * that ties them together.
 *
 * Everything outside the program is an argument: the file system `fs`, the
 * TOML parser `parse`, the timestamp `ts` (an opaque string), and
 * `colorFault`, the I/O error kind with which the terminal refuses to set a
 * colour, if it does.
 */
module Logging {
  import opened Options
  import opened Errors
  import opened FileSystem
  import opened Levels
  import opened Configuration

  datatype Stream = Stdout | Stderr

  /** One line written to a console stream, with the colour set before it (if any). */
  datatype Printed = Printed(stream: Stream, color: Option<Color>, text: string)

  /** What a call does: its result, the file system afterwards, and the console lines in order. */
  datatype Effect = Effect(result: Res<()>, fs: Fs, console: seq<Printed>)

  const CreatingNotice: Printed := Printed(Stdout, None, "Log file was not created, creating...\n")
  const MissingPath: string := "`log_path` must set with `write_log_to_files`"

  // ---------------------------------------------------------------------------
  // Filter

  /**
   * `Log::check_level`: with no threshold configured every message passes,
   * otherwise a message passes when the threshold is `<=` it. An unknown
   * level name panics.
   */
  function CheckLevel(l: Log, c: Config): (r: Res<bool>)
    ensures !r.Err?
    ensures r.Panic? <==> LogLevel(c).Panic?
    ensures c.logLevel.None? ==> r == Ok(true)
    ensures LogLevel(c).Ok? && LogLevel(c).value.Some? ==>
              r == Ok(Rank(LogLevel(c).value.value) <= Rank(l))
  {
    var level := LogLevel(c);
    if level.Panic? then Panic(level.message)
    else match level.value
      case None => Ok(true)
      case Some(t) =>
        ThresholdComparesRank(t, l);
        Ok(LogLe(t, l))
  }

  /** A `custom` threshold admits Custom messages and nothing else; so does the default configuration. */
  lemma CustomThresholdAdmitsOnlyCustom(c: Config, l: Log)
    requires c.logLevel == Some("custom") || c == Default()
    ensures CheckLevel(l, c) == Ok(l.Custom?)
  {
  }

  /** A `debug` threshold drops Trace and Info (declared below Debug) and admits everything else. */
  lemma DebugThresholdDropsTraceAndInfo(c: Config, l: Log)
    requires c.logLevel == Some("debug")
    ensures CheckLevel(l, c) == Ok(!l.Trace? && !l.Info?)
  {
  }

  /** A `trace` threshold admits every message, as does an absent one. */
  lemma TraceThresholdAdmitsAll(c: Config, l: Log)
    requires c.logLevel == Some("trace") || c.logLevel.None?
    ensures CheckLevel(l, c) == Ok(true)
  {
  }

  // ---------------------------------------------------------------------------
  // Rendering

  /** The text of one entry: timestamp, label, content, newline. */
  function RenderLine(ts: string, l: Log): string {
    ts + " " + GetLevel(l) + " " + l.content + "\n"
  }

  function CountNewlines(s: string): nat {
    if |s| == 0 then 0 else (if s[0] == '\n' then 1 else 0) + CountNewlines(s[1..])
  }

  lemma {:induction false} CountNewlinesAppend(a: string, b: string)
    ensures CountNewlines(a + b) == CountNewlines(a) + CountNewlines(b)
    decreases |a|
  {
    if |a| == 0 {
      assert a + b == b;
    } else {
      assert (a + b)[0] == a[0];
      assert (a + b)[1..] == a[1..] + b;
      CountNewlinesAppend(a[1..], b);
    }
  }

  lemma {:induction false} NoNewlineCountsZero(s: string)
    requires '\n' !in s
    ensures CountNewlines(s) == 0
    decreases |s|
  {
    if |s| > 0 {
      assert s[0] != '\n';
      NoNewlineCountsZero(s[1..]);
    }
  }

  /**
   * A rendered entry is exactly one line: it ends in its only newline,
   * provided neither the timestamp, the label nor the content holds one.
   */
  lemma RenderedEntryIsOneLine(ts: string, l: Log)
    requires '\n' !in ts && '\n' !in GetLevel(l) && '\n' !in l.content
    ensures CountNewlines(RenderLine(ts, l)) == 1
    ensures RenderLine(ts, l)[|RenderLine(ts, l)| - 1] == '\n'
  {
    var head := ts + " " + GetLevel(l) + " " + l.content;
    assert RenderLine(ts, l) == head + "\n";
    assert '\n' !in head;
    NoNewlineCountsZero(head);
    CountNewlinesAppend(head, "\n");
  }

  // ---------------------------------------------------------------------------
  // Console

  /** `write_to_term`: stdout, in the level's colour, with the custom type as label when given. */
  function WriteToTerm(l: Log, ts: string, content: string, customType: Option<string>, colorFault: Option<IoKind>): Res<Printed> {
    if colorFault.Some? then Err(FromIo(colorFault.value))
    else
      var name := if customType.Some? then customType.value else GetLevel(l);
      Ok(Printed(Stdout, Some(GetColor(l)), ts + " " + name + " " + content + "\n"))
  }

  /**
   * `print_log`: Error goes to stderr, every other level to stdout, each in
   * its colour; the printed text is the same line the log file receives.
   * A refused colour change is returned as an error and nothing is printed.
   */
  function PrintLog(l: Log, ts: string, colorFault: Option<IoKind>): (r: Res<Printed>)
    ensures r.Ok? <==> colorFault.None?
    ensures colorFault.Some? ==> r == Err(FromIo(colorFault.value))
    ensures r.Ok? ==> r.value.stream == (if l.Error? then Stderr else Stdout)
    ensures r.Ok? ==> r.value.color == Some(GetColor(l))
    ensures r.Ok? ==> r.value.text == RenderLine(ts, l)
  {
    match l
    case Error(c) =>
      if colorFault.Some? then Err(FromIo(colorFault.value))
      else Ok(Printed(Stderr, Some(GetColor(l)), ts + " " + GetLevel(l) + " " + c + "\n"))
    case Trace(c) => WriteToTerm(l, ts, c, None, colorFault)
    case Info(c) => WriteToTerm(l, ts, c, None, colorFault)
    case Debug(c) => WriteToTerm(l, ts, c, None, colorFault)
    case Warn(c) => WriteToTerm(l, ts, c, None, colorFault)
    case Custom(t, c) => WriteToTerm(l, ts, c, Some(t), colorFault)
  }

  // ---------------------------------------------------------------------------
  // Log file

  const StackOverflow: string := "thread 'main' has overflowed its stack"

  /** The process may write to `p` but not read it, as with a file of mode 0200. */
  predicate WriteOnly(fs: Fs, p: Path) {
    p in fs && !fs[p].readable && fs[p].writable
  }

  /** `n` copies of the notice printed when the log file cannot be read. */
  function Notices(n: nat): seq<Printed> {
    if n == 0 then [] else [CreatingNotice] + Notices(n - 1)
  }

  /**
   * `write_log` exactly as written: read the whole file, append the entry,
   * write it all back. When the read fails, a notice is printed; if the file
   * cannot be opened either, it is created and `write_log` calls itself,
   * ignoring the retry's error. A file that opens but cannot be read is left
   * alone. Each call takes one of the `depth` stack frames left; running out
   * of them aborts the process.
   *
   * For every file but a write-only one the retry finds the freshly created
   * file readable and the call agrees with `WriteLog`. On a write-only file
   * the retry fails to read it again, re-creates it and calls itself again,
   * without end: whatever stack there is gets used up, one notice per frame.
   */
  function WriteLogAsWritten(fs: Fs, logPath: Option<Path>, l: Log, ts: string, depth: nat): (e: Effect)
    ensures depth >= 2 && !(logPath.Some? && WriteOnly(fs, logPath.value)) ==>
              e == WriteLog(fs, logPath, l, ts, true)
    ensures logPath.Some? && WriteOnly(fs, logPath.value) ==>
              e.result == Panic(StackOverflow) && e.console == Notices(depth)
    ensures logPath.Some? && WriteOnly(fs, logPath.value) && depth > 0 ==>
              e.fs == fs[logPath.value := FileState(Text(""), false, true)]
    decreases depth
  {
    if depth == 0 then Effect(Panic(StackOverflow), fs, [])
    else match logPath
    case None => Effect(Panic(MissingPath), fs, [])
    case Some(p) =>
      match ReadToString(fs, p)
      case IoOk(prior) =>
        (match Write(fs, p, prior + RenderLine(ts, l))
         case IoOk(written) => Effect(Ok(()), written, [])
         case IoErr(k) => Effect(Err(FromIo(k)), fs, []))
      case IoErr(_) =>
        if Open(fs, p).IoErr? then
          match Create(fs, p)
          case IoErr(k) => Effect(Err(FromIo(k)), fs, [CreatingNotice])
          case IoOk(created) =>
            var retry := WriteLogAsWritten(created, logPath, l, ts, depth - 1);
            assert "" + RenderLine(ts, l) == RenderLine(ts, l);
            assert WriteOnly(fs, p) ==> created == fs[p := FileState(Text(""), false, true)];
            assert WriteOnly(fs, p) && depth > 1 ==> created[p := FileState(Text(""), false, true)] == created;
            Effect(if retry.result.Panic? then retry.result else Ok(()), retry.fs, [CreatingNotice] + retry.console)
        else
          Effect(Ok(()), fs, [CreatingNotice])
  }

  /**
   * `write_log` with the retry it evidently intends: after creating the
   * file, the step is tried once more with creation switched off
   * (`mayCreate` false), so a log file that still cannot be read is given
   * up on instead of being re-created forever. Callers pass `mayCreate`
   * true. A write-only file is truncated by the one `File::create`, as in
   * the code.
   */
  function WriteLog(fs: Fs, logPath: Option<Path>, l: Log, ts: string, mayCreate: bool): (e: Effect)
    ensures logPath.None? ==> e == Effect(Panic(MissingPath), fs, [])
    ensures logPath.Some? && logPath.value !in fs ==>
              e == if mayCreate then Effect(Ok(()), fs[logPath.value := Fresh(RenderLine(ts, l))], [CreatingNotice])
                   else Effect(Ok(()), fs, [CreatingNotice])
    ensures logPath.Some? && logPath.value in fs && fs[logPath.value].readable && fs[logPath.value].body.Text? ==>
              e == if fs[logPath.value].writable
                   then Effect(Ok(()), fs[logPath.value := Fresh(fs[logPath.value].body.content + RenderLine(ts, l))], [])
                   else Effect(Err(FromIo(PermissionDenied)), fs, [])
    ensures logPath.Some? && logPath.value in fs && fs[logPath.value].readable && fs[logPath.value].body.Binary? ==>
              e == Effect(Ok(()), fs, [CreatingNotice])
    ensures logPath.Some? && logPath.value in fs && !fs[logPath.value].readable && !fs[logPath.value].writable ==>
              e == Effect(if mayCreate then Err(FromIo(PermissionDenied)) else Ok(()), fs, [CreatingNotice])
    ensures logPath.Some? && WriteOnly(fs, logPath.value) ==>
              e == if mayCreate then Effect(Ok(()), fs[logPath.value := FileState(Text(""), false, true)], [CreatingNotice, CreatingNotice])
                   else Effect(Ok(()), fs, [CreatingNotice])
    ensures |e.console| <= if mayCreate then 2 else 1
    ensures e.result != Panic(StackOverflow)
    decreases if mayCreate then 1 else 0
  {
    match logPath
    case None => Effect(Panic(MissingPath), fs, [])
    case Some(p) =>
      match ReadToString(fs, p)
      case IoOk(prior) =>
        (match Write(fs, p, prior + RenderLine(ts, l))
         case IoOk(written) => Effect(Ok(()), written, [])
         case IoErr(k) => Effect(Err(FromIo(k)), fs, []))
      case IoErr(_) =>
        if mayCreate && Open(fs, p).IoErr? then
          match Create(fs, p)
          case IoErr(k) => Effect(Err(FromIo(k)), fs, [CreatingNotice])
          case IoOk(created) =>
            var retry := WriteLog(created, logPath, l, ts, false);
            assert "" + RenderLine(ts, l) == RenderLine(ts, l);
            assert WriteOnly(fs, p) ==> created == fs[p := FileState(Text(""), false, true)];
            Effect(if retry.result.Panic? then retry.result else Ok(()), retry.fs, [CreatingNotice] + retry.console)
        else
          Effect(Ok(()), fs, [CreatingNotice])
  }

  /** Appending never truncates: when the log file held readable text, its old contents remain a prefix of the new. */
  lemma WriteLogKeepsOldContents(fs: Fs, p: Path, l: Log, ts: string)
    requires p in fs && fs[p].readable && fs[p].body.Text?
    ensures var e := WriteLog(fs, Some(p), l, ts, true);
            p in e.fs && e.fs[p].body.Text? && fs[p].body.content <= e.fs[p].body.content
            && (e.fs[p].body.content != fs[p].body.content <==> e.result.Ok?)
  {
  }

  // ---------------------------------------------------------------------------
  // Dispatch

  /** The message passes the filter under the configuration currently on disk. */
  predicate Passes(fs: Fs, parse: string -> Option<Config>, l: Log) {
    var cfg := Read(fs, parse);
    cfg.Ok? && CheckLevel(l, cfg.value) == Ok(true)
  }

  /** The configuration on disk asks for entries to be written to the log file. */
  predicate FileLoggingOn(fs: Fs, parse: string -> Option<Config>) {
    var cfg := Read(fs, parse);
    cfg.Ok? && cfg.value.writeToLogFile == Some(true)
  }

  /**
   * `log`: read the configuration, filter, print, and append to the log file
   * only when `write_to_log_file` is `Some(true)` (`None` counts as false).
   */
  function Dispatch(fs: Fs, parse: string -> Option<Config>, ts: string, colorFault: Option<IoKind>, l: Log): (e: Effect)
    ensures Read(fs, parse).Err? ==> e == Effect(Err(Read(fs, parse).error), fs, [])
    ensures Read(fs, parse).Ok? && LogLevel(Read(fs, parse).value).Panic? ==> e == Effect(Panic(UnknownLevel), fs, [])
    ensures Read(fs, parse).Ok? && CheckLevel(l, Read(fs, parse).value) == Ok(false) ==> e == Effect(Ok(()), fs, [])
    ensures Passes(fs, parse, l) && colorFault.Some? ==> e == Effect(Err(FromIo(colorFault.value)), fs, [])
    ensures Passes(fs, parse, l) && colorFault.None? ==>
              e.console != [] && e.console[0] == PrintLog(l, ts, None).value
    ensures Passes(fs, parse, l) && colorFault.None? && !FileLoggingOn(fs, parse) ==>
              e == Effect(Ok(()), fs, [PrintLog(l, ts, None).value])
    ensures Passes(fs, parse, l) && colorFault.None? && FileLoggingOn(fs, parse) ==>
              var w := WriteLog(fs, Read(fs, parse).value.logPath, l, ts, true);
              e == Effect(w.result, w.fs, [PrintLog(l, ts, None).value] + w.console)
    ensures e.fs != fs ==> Passes(fs, parse, l) && colorFault.None? && FileLoggingOn(fs, parse)
    ensures e.result.Ok? && e.console != [] ==> Passes(fs, parse, l) && colorFault.None?
  {
    var cfg := Read(fs, parse);
    if !cfg.Ok? then Effect(Err(cfg.error), fs, [])
    else
      var c := cfg.value;
      var ok := CheckLevel(l, c);
      if !ok.Ok? then Effect(Panic(ok.message), fs, [])
      else if !ok.value then Effect(Ok(()), fs, [])
      else
        var printed := PrintLog(l, ts, colorFault);
        if !printed.Ok? then Effect(Err(printed.error), fs, [])
        else if c.writeToLogFile == Some(true) then
          var w := WriteLog(fs, c.logPath, l, ts, true);
          Effect(w.result, w.fs, [printed.value] + w.console)
        else
          Effect(Ok(()), fs, [printed.value])
  }
}

=== FILE: options.dfy ===
/** Rust's `Option<T>`: a value that may be absent. */
module Options {

  datatype Option<T> = None | Some(value: T)
}

=== FILE: sessions.dfy ===
/**
 * Several calls in a row. An entry point only returns when its `log` call
 * succeeded (an error ends the process, a panic unwinds), so a run of calls
 * stops at the first one that does not succeed.
 */
module Sessions {
  import opened Options
  import opened Errors
  import opened FileSystem
  import opened Levels
  import opened Configuration
  import opened Logging
  import Lib

  /** One call of an entry point: its timestamp, the terminal's colour failure if any, and the message. */
  datatype Call = Call(ts: string, colorFault: Option<IoKind>, msg: Log)

  function DispatchAll(fs: Fs, parse: string -> Option<Config>, calls: seq<Call>): Effect
    decreases |calls|
  {
    if |calls| == 0 then Effect(Ok(()), fs, [])
    else
      var first := Dispatch(fs, parse, calls[0].ts, calls[0].colorFault, calls[0].msg);
      if !first.result.Ok? then first
      else
        var rest := DispatchAll(first.fs, parse, calls[1..]);
        Effect(rest.result, rest.fs, first.console + rest.console)
  }

  /** The file line of one call when it passes the filter of `c`, otherwise nothing. */
  function StepLine(c: Config, call: Call): string {
    if CheckLevel(call.msg, c) == Ok(true) then RenderLine(call.ts, call.msg) else ""
  }

  /** The console line of one call when it passes the filter of `c`, otherwise nothing. */
  function StepPrints(c: Config, call: Call): seq<Printed> {
    if CheckLevel(call.msg, c) == Ok(true) then [PrintLog(call.msg, call.ts, None).value] else []
  }

  /** The file lines of the calls that pass the filter of `c`, in call order. */
  function PassingLines(c: Config, calls: seq<Call>): string
    decreases |calls|
  {
    if |calls| == 0 then "" else StepLine(c, calls[0]) + PassingLines(c, calls[1..])
  }

  /** The console lines of the calls that pass the filter of `c`, in call order. */
  function PassingPrints(c: Config, calls: seq<Call>): seq<Printed>
    decreases |calls|
  {
    if |calls| == 0 then [] else StepPrints(c, calls[0]) + PassingPrints(c, calls[1..])
  }

  function PassingCount(c: Config, calls: seq<Call>): nat
    decreases |calls|
  {
    if |calls| == 0 then 0
    else (if CheckLevel(calls[0].msg, c) == Ok(true) then 1 else 0) + PassingCount(c, calls[1..])
  }

  predicate NoColorFaults(calls: seq<Call>) {
    forall i | 0 <= i < |calls| :: calls[i].colorFault.None?
  }

  /** The configuration asks for file logging to a writable log file `p` that is not the config file itself. */
  predicate LogsTo(fs: Fs, parse: string -> Option<Config>, p: Path) {
    var cfg := Read(fs, parse);
    && cfg.Ok?
    && cfg.value.writeToLogFile == Some(true)
    && cfg.value.logPath == Some(p)
    && LogLevel(cfg.value).Ok?
    && p != ConfigFile
  }

  /** One call with file logging on: it succeeds, appends its line if it passes, and keeps the configuration. */
  lemma DispatchStep(fs: Fs, parse: string -> Option<Config>, p: Path, prior: string, call: Call)
    requires LogsTo(fs, parse, p)
    requires p in fs && fs[p] == Fresh(prior)
    requires call.colorFault.None?
    ensures var c := Read(fs, parse).value;
            var e := Dispatch(fs, parse, call.ts, call.colorFault, call.msg);
            && e == Effect(Ok(()), fs[p := Fresh(prior + StepLine(c, call))], StepPrints(c, call))
            && Read(e.fs, parse) == Read(fs, parse)
  {
    var c := Read(fs, parse).value;
    if CheckLevel(call.msg, c) == Ok(true) {
      assert Passes(fs, parse, call.msg);
    } else {
      assert prior + "" == prior;
      assert fs[p := Fresh(prior)] == fs;
    }
    var fs' := fs[p := Fresh(prior + StepLine(c, call))];
    assert fs'[ConfigFile] == fs[ConfigFile];
  }

  /**
   * With file logging on and the log file readable and writable, a run of
   * calls succeeds, appends exactly the lines of the passing messages, in
   * order, after the old contents, and prints exactly those messages.
   */
  lemma {:induction false} LogFileGrowsByPassingLines(fs: Fs, parse: string -> Option<Config>, p: Path, prior: string, calls: seq<Call>)
    requires LogsTo(fs, parse, p)
    requires p in fs && fs[p] == Fresh(prior)
    requires NoColorFaults(calls)
    ensures var e := DispatchAll(fs, parse, calls);
            var c := Read(fs, parse).value;
            && e.result.Ok?
            && e.fs == fs[p := Fresh(prior + PassingLines(c, calls))]
            && e.console == PassingPrints(c, calls)
    decreases |calls|
  {
    var c := Read(fs, parse).value;
    if |calls| == 0 {
      assert prior + "" == prior;
      assert fs[p := Fresh(prior)] == fs;
    } else {
      var line := StepLine(c, calls[0]);
      var fs1 := fs[p := Fresh(prior + line)];
      DispatchAllStep(fs, parse, p, prior, calls);
      NoColorFaultsTail(calls);
      LogFileGrowsByPassingLines(fs1, parse, p, prior + line, calls[1..]);
      AppendAfterStep(fs, p, prior, line, PassingLines(c, calls[1..]));
    }
  }

  lemma NoColorFaultsTail(calls: seq<Call>)
    requires |calls| > 0 && NoColorFaults(calls)
    ensures NoColorFaults(calls[1..])
  {
    forall i | 0 <= i < |calls[1..]| ensures calls[1..][i].colorFault.None? {
      assert calls[1..][i] == calls[i + 1];
    }
  }

  lemma AppendAfterStep(fs: Fs, p: Path, prior: string, line: string, rest: string)
    ensures fs[p := Fresh(prior + line)][p := Fresh((prior + line) + rest)]
         == fs[p := Fresh(prior + (line + rest))]
  {
    assert (prior + line) + rest == prior + (line + rest);
  }

  /** The first call of a run with file logging on, in terms of the rest of the run. */
  lemma DispatchAllStep(fs: Fs, parse: string -> Option<Config>, p: Path, prior: string, calls: seq<Call>)
    requires LogsTo(fs, parse, p)
    requires p in fs && fs[p] == Fresh(prior)
    requires |calls| > 0 && calls[0].colorFault.None?
    ensures var c := Read(fs, parse).value;
            var fs1 := fs[p := Fresh(prior + StepLine(c, calls[0]))];
            var rest := DispatchAll(fs1, parse, calls[1..]);
            && Read(fs1, parse) == Read(fs, parse)
            && LogsTo(fs1, parse, p)
            && DispatchAll(fs, parse, calls) == Effect(rest.result, rest.fs, StepPrints(c, calls[0]) + rest.console)
  {
    DispatchStep(fs, parse, p, prior, calls[0]);
  }

  /** With file logging off (or no readable configuration), no run of calls creates or changes any file. */
  lemma {:induction false} FileUntouchedWhenDisabled(fs: Fs, parse: string -> Option<Config>, calls: seq<Call>)
    requires !FileLoggingOn(fs, parse)
    ensures DispatchAll(fs, parse, calls).fs == fs
    decreases |calls|
  {
    if |calls| > 0 {
      var first := Dispatch(fs, parse, calls[0].ts, calls[0].colorFault, calls[0].msg);
      assert first.fs == fs;
      FileUntouchedWhenDisabled(fs, parse, calls[1..]);
    }
  }

  /**
   * `init` on a missing log file, then a run of calls: the file ends up
   * holding exactly the lines of the passing messages.
   */
  lemma InitThenLogHoldsExactlyPassingLines(fs: Fs, parse: string -> Option<Config>, p: Path, calls: seq<Call>)
    requires LogsTo(fs, parse, p)
    requires p !in fs
    requires NoColorFaults(calls)
    ensures var i := Lib.Init(fs, parse);
            && i.result.Ok?
            && DispatchAll(i.fs, parse, calls).fs == fs[p := Fresh(PassingLines(Read(fs, parse).value, calls))]
  {
    var fs1 := Lib.Init(fs, parse).fs;
    assert fs1 == fs[p := Fresh("")];
    assert fs1[ConfigFile] == fs[ConfigFile];
    assert Read(fs1, parse) == Read(fs, parse);
    LogFileGrowsByPassingLines(fs1, parse, p, "", calls);
    assert "" + PassingLines(Read(fs, parse).value, calls) == PassingLines(Read(fs, parse).value, calls);
  }

  /** One line per passing message: the appended text holds exactly as many newlines as messages passed. */
  lemma {:induction false} PassingLinesCount(c: Config, calls: seq<Call>)
    requires forall i | 0 <= i < |calls| ::
               '\n' !in calls[i].ts && '\n' !in GetLevel(calls[i].msg) && '\n' !in calls[i].msg.content
    ensures CountNewlines(PassingLines(c, calls)) == PassingCount(c, calls)
    decreases |calls|
  {
    if |calls| > 0 {
      var call := calls[0];
      var line := StepLine(c, call);
      if CheckLevel(call.msg, c) == Ok(true) {
        RenderedEntryIsOneLine(call.ts, call.msg);
      }
      assert forall i | 0 <= i < |calls[1..]| :: calls[1..][i] == calls[i + 1];
      PassingLinesCount(c, calls[1..]);
      CountNewlinesAppend(line, PassingLines(c, calls[1..]));
    }
  }

  /**
   * The example of the crate documentation: with `log_level = "debug"`, the
   * six example calls leave DEBUG, WARN, ERROR and CustomType entries in the
   * log file and on the console, and no TRACE or INFO entry.
   */
  lemma CrateDocExample(fs: Fs, parse: string -> Option<Config>, prior: string, ts: seq<string>)
    requires ConfigFile in fs && fs[ConfigFile].readable && fs[ConfigFile].body.Text?
    requires parse(fs[ConfigFile].body.content) == Some(Config(Some(true), Some("dzl.log"), Some("debug")))
    requires "dzl.log" in fs && fs["dzl.log"] == Fresh(prior)
    requires |ts| == 6
    ensures var e := DispatchAll(fs, parse, DocCalls(ts));
            && e.result.Ok?
            && e.fs == fs["dzl.log" := Fresh(prior + DocOutput(ts))]
            && |e.console| == 4
  {
    var c := Read(fs, parse).value;
    assert c.logLevel == Some("debug");
    assert LogsTo(fs, parse, "dzl.log");
    assert NoColorFaults(DocCalls(ts));
    LogFileGrowsByPassingLines(fs, parse, "dzl.log", prior, DocCalls(ts));
    DocCallsUnderDebug(c, ts);
  }

  /** Under a `debug` threshold the example's TRACE and INFO calls are dropped and the other four kept. */
  lemma DocCallsUnderDebug(c: Config, ts: seq<string>)
    requires c.logLevel == Some("debug")
    requires |ts| == 6
    ensures PassingLines(c, DocCalls(ts)) == DocOutput(ts)
    ensures |PassingPrints(c, DocCalls(ts))| == 4
  {
    var calls := DocCalls(ts);
    var tail5 := [calls[5]];
    var tail4 := [calls[4]] + tail5;
    var tail3 := [calls[3]] + tail4;
    var tail2 := [calls[2]] + tail3;
    var tail1 := [calls[1]] + tail2;
    assert calls == [calls[0]] + tail1;
    assert tail5 == [calls[5]] + [];
    PassingCons(c, calls[5], []);
    PassingCons(c, calls[4], tail5);
    PassingCons(c, calls[3], tail4);
    PassingCons(c, calls[2], tail3);
    PassingCons(c, calls[1], tail2);
    PassingCons(c, calls[0], tail1);
    StepUnderDebug(c, calls[0]);
    StepUnderDebug(c, calls[1]);
    StepUnderDebug(c, calls[2]);
    StepUnderDebug(c, calls[3]);
    StepUnderDebug(c, calls[4]);
    StepUnderDebug(c, calls[5]);
    DocOutputShape(ts);
    JoinKept(RenderLine(ts[1], Debug(DocText)), RenderLine(ts[3], Warn(DocText)),
             RenderLine(ts[4], Error(DocText)), RenderLine(ts[5], Custom("CustomType", DocText)));
  }

  /** The documented output is the four kept entries, rendered and joined in call order. */
  lemma DocOutputShape(ts: seq<string>)
    requires |ts| == 6
    ensures DocOutput(ts) == RenderLine(ts[1], Debug(DocText)) + RenderLine(ts[3], Warn(DocText))
                             + RenderLine(ts[4], Error(DocText)) + RenderLine(ts[5], Custom("CustomType", DocText))
  {
  }

  /** Dropping the empty lines of rejected calls and re-associating the kept ones. */
  lemma JoinKept(a: string, b: string, c: string, d: string)
    ensures "" + (a + ("" + (b + (c + (d + ""))))) == a + b + c + d
  {
    assert d + "" == d;
    assert "" + (b + (c + d)) == b + (c + d);
    assert "" + (a + (b + (c + d))) == a + (b + (c + d));
    assert a + (b + (c + d)) == ((a + b) + c) + d;
  }

  lemma PassingCons(c: Config, call: Call, rest: seq<Call>)
    ensures PassingLines(c, [call] + rest) == StepLine(c, call) + PassingLines(c, rest)
    ensures PassingPrints(c, [call] + rest) == StepPrints(c, call) + PassingPrints(c, rest)
  {
    assert ([call] + rest)[1..] == rest;
  }

  lemma StepUnderDebug(c: Config, call: Call)
    requires c.logLevel == Some("debug")
    ensures StepLine(c, call) == if call.msg.Trace? || call.msg.Info? then "" else RenderLine(call.ts, call.msg)
    ensures |StepPrints(c, call)| == if call.msg.Trace? || call.msg.Info? then 0 else 1
  {
    DebugThresholdDropsTraceAndInfo(c, call.msg);
  }

  /** The text every call of the crate documentation's example logs. */
  const DocText: string := "Something..."

  /** The six calls of the crate documentation's example, all logging `DocText`. */
  function DocCalls(ts: seq<string>): seq<Call>
    requires |ts| == 6
  {
    [Call(ts[0], None, Trace(DocText)), Call(ts[1], None, Debug(DocText)), Call(ts[2], None, Info(DocText)),
     Call(ts[3], None, Warn(DocText)), Call(ts[4], None, Error(DocText)), Call(ts[5], None, Custom("CustomType", DocText))]
  }

  /** The output the crate documentation shows for its example. */
  function DocOutput(ts: seq<string>): string
    requires |ts| == 6
  {
    (ts[1] + " " + "DEBUG" + " " + DocText + "\n")
    + (ts[3] + " " + "WARN" + " " + DocText + "\n")
    + (ts[4] + " " + "ERROR" + " " + DocText + "\n")
    + (ts[5] + " " + "CustomType" + " " + DocText + "\n")
  }
}
